=== FILE: README.md ===
# create-seneca-service bootstrap, modelled in Dafny

`create-seneca-service <project-directory> [--scripts-version <alternative-package>]`
creates a project directory, writes a minimal `package.json`, installs six fixed
dependencies plus the `seneca-scripts` package (or an alternative to it) with npm, pins
four runtime dependencies to caret ranges, and hands over to the installed package's
`scripts/init.js`. If the promise chain rejects, it deletes the files it generated and
exits with status 1.

This project models the decisions that bootstrap makes. It covers:

- specifier resolution (`getInstallPackage`);
- the dispatch and the pure branches of package-name extraction (`getPackageName`);
- the dependency list and the npm argument vector (`run`, `install`);
- caret pinning (`makeCaretRange`, `setCaretRangeForRuntimeDeps`);
- the rollback allow-list and failure classification in `run`'s `.catch`;
- the order in which `run` chains these steps.

Files, one module each:

- `wrappers.dfy`: `Option` and `Result`.
- `strings.dfy`: prefixes, suffixes, occurrences, JavaScript line terminators, and `Array.prototype.join`.
- `externals.dfy`: the `semver` functions and `path.resolve`, passed in as values. The only behaviour of `path.resolve` the model fixes is how it treats an `undefined` base (`InstallPackage.ResolveWithBase`).
- `install_package.dfy`: `getInstallPackage`, as written and as intended.
- `package_name.dfy`: `getPackageName`. It includes the leftmost-start, greedy-end semantics of `/([^/]+)\.git(#.*)?$/`.
- `installer.dfy`: the dependency list, the npm argv, and how `install` settles.
- `caret_pin.dfy`: the pin step and its fatal errors.
- `rollback.dfy`: the failure handler.
- `bootstrap.dfy`: `run` as a whole, as written and as intended, and the call-site defect in `createApp`.

The regular expressions are modelled as JavaScript evaluates them:

- `.` does not match `\n`, `\r`, U+2028 or U+2029.
- `$` means end of input.
- In `/^file:(.*)?$/`, the optional group is `undefined` when the path is empty.

JavaScript truthiness is modelled explicitly. An empty `semver.valid` result and an empty
`reason.command` are both falsy.

Where the code departs from what it evidently intends, the model follows the code:

- `getPackageName` is not guaranteed to resolve:
  - a `git+` reference without `…name.git` throws a TypeError synchronously;
  - a `file:` reference whose `package.json` cannot be `require`d throws too.

  Both escape `run` before `.catch` is attached. Nothing is rolled back (`RunOutcome.Crashed`).
- A tarball-shaped reference never gets as far as npm. The tarball branch calls
  `getTemporaryDirectory`, which the module never declares or imports, so it throws a
  ReferenceError synchronously and `run` crashes the same way (see Findings).
- The `.catch` handler does not only see installer failures. An error thrown while loading
  or calling `init` reaches it too, and is classified as unexpected unless it carries a
  `command`.
- `path.resolve(undefined, p)` does not always throw. Node reads the arguments from the
  right and stops at the first absolute one, so with an `undefined` original directory a
  `file:` specifier throws when its path is empty, relative, or holds a line terminator.
- A `file:` specifier with an empty path throws instead of resolving to the original
  directory (see Findings).
- The dependency list is not de-duplicated. A reference equal to a base package is passed
  to npm twice.

## Model

| member | source | states |
|---|---|---|
| `InstallPackage.GetInstallPackage` | packages/create-seneca-service/createSenecaService.js:312-327 | Valid semver `v` gives exactly `seneca-scripts@v`. Otherwise a `file:` specifier gives `file:` + resolve(originalDirectory, rest). Any other non-empty string is passed through unchanged. An absent or empty specifier gives `seneca-scripts`. |
| `InstallPackage.ValidSemver` | packages/create-seneca-service/createSenecaService.js:314-315 | The semver branch is taken iff `semver.valid` returns a non-empty string, and then yields exactly that string. |
| `InstallPackage.GetInstallPackageAsWritten` | packages/create-seneca-service/createSenecaService.js:312-327 | Throws exactly for a non-semver `file:` specifier whose path capture fails, or whose path is relative while the directory is `undefined`. Whenever it succeeds with a directory, it agrees with `GetInstallPackage`. An absolute path with an `undefined` directory resolves on its own. Every specifier that is not a non-semver `file:` one gives the intended value whatever the directory: `seneca-scripts@v`, the specifier itself, or `seneca-scripts`. |
| `InstallPackage.FilePathCapture` | packages/create-seneca-service/createSenecaService.js:320 | `/^file:(.*)?$/[1]` is defined iff the path after `file:` is non-empty and free of line terminators. It is then that path. |
| `InstallPackage.ResolveWithBase` | packages/create-seneca-service/createSenecaService.js:318-321 | `path.resolve(base, p)` throws iff the base is `undefined` and `p` is not absolute. A defined base is passed to the resolver, and an absolute `p` resolves without the base. |
| `InstallPackage.InstallPackageNeverEmpty` | packages/create-seneca-service/createSenecaService.js:312-327 | Resolution is permissive: it never fails and never yields the empty reference. |
| `InstallPackage.EmptyFilePathThrows` | packages/create-seneca-service/createSenecaService.js:317-321 | `file:` with an empty path throws as written; the intended resolution gives `file:` + resolve(dir, ""). |
| `InstallPackage.UndefinedDirectoryThrows` | packages/create-seneca-service/createSenecaService.js:317-321 | With `originalDirectory` undefined, a non-semver `file:` specifier throws for an empty or relative path; an absolute path without line terminators resolves without the base. |
| `PackageName.StripVersion` | packages/create-seneca-service/createSenecaService.js:367-371 | The `@` branch result is a non-empty prefix of the input with no `@` after index 0, and the input continues with `@` right after it. |
| `PackageName.VersionSeparatorIsSplitPoint` | packages/create-seneca-service/createSenecaService.js:367-371 | For a reference without line terminators, `/.+@/` matches iff `split('@')` after the first character cuts something off. |
| `PackageName.GitMatchFrom` | packages/create-seneca-service/createSenecaService.js:366 | The regex search finds the leftmost start that has a match and, for it, the greedy (largest) end of `[^/]+`. No match exists iff it returns none. |
| `PackageName.GitRepoName` | packages/create-seneca-service/createSenecaService.js:366 | A git name is non-empty, slash-free, and occurs in the URL immediately followed by `.git`. |
| `PackageName.GitNameNeedsDotGit` | packages/create-seneca-service/createSenecaService.js:366 | The git regex can only match, and so the branch can only yield a name, when `.git` occurs somewhere in the URL. |
| `PackageName.PackageNameOf` | packages/create-seneca-service/createSenecaService.js:329-381 | The dispatch goes to the archive branch iff the reference matches the tarball regex. It throws only for `git+` or `file:` references. The `@` and identity branches give a prefix of the reference. The `file:` branch reads `<path>/package.json` for a non-empty path. |
| `PackageName.TarballIsStemAndExtension` | packages/create-seneca-service/createSenecaService.js:330 | A reference ending in `.tgz` or `.tar.gz` passes the tarball test iff the stem before the extension is non-empty and free of line terminators. |
| `PackageName.GitUrlName` | packages/create-seneca-service/createSenecaService.js:362-366 | `p/name.git#ref` yields `name` when `p` and the fragment contain no `.git`: the last segment before `.git`, with the `#` fragment ignored. |
| `PackageName.GitReferenceName` | packages/create-seneca-service/createSenecaService.js:362-366 | Such a `git+` reference that is not tarball-shaped is named by its repository. |
| `PackageName.ScopedName` | packages/create-seneca-service/createSenecaService.js:367-371 | `name@tag` is named `name` when `name` has no `@` after index 0. This covers `@scope/pkg@1.0` giving `@scope/pkg`. |
| `PackageName.FilePathWithAtIsCut` | packages/create-seneca-service/createSenecaService.js:367-379 | A `file:` reference with an `@` in its path takes the `@` branch. The result is a strictly shorter name that still starts with `file:`. |
| `PackageName.PlainName` | packages/create-seneca-service/createSenecaService.js:380 | A reference that is neither a tarball, nor `git+`, nor `@`-versioned, nor `file:` is its own name. |
| `PackageName.TarballSuffixInTag` | packages/create-seneca-service/createSenecaService.js:330 | `name@tag` can only look like a tarball if `tag` itself ends in `.tgz` or `.tar.gz`. |
| `PackageName.VersionedScriptsName` | packages/create-seneca-service/createSenecaService.js:367-371 | `seneca-scripts@v` is named `seneca-scripts` unless `v` ends in an archive extension. |
| `PackageName.RegistryReferenceName` | packages/create-seneca-service/createSenecaService.js:312-381 | Resolution followed by extraction names the registry package `seneca-scripts`, for an absent or empty specifier and for every valid version without an archive extension. |
| `Installer.AllDependencies` | packages/create-seneca-service/createSenecaService.js:139-153 | The six base packages in source order, then the resolved reference last. |
| `Installer.InstallArgs` | packages/create-seneca-service/createSenecaService.js:388-399 | The argv is `install --save --save-exact --loglevel error`, then the dependencies, then `--verbose` only when verbose. |
| `Installer.Install` | packages/create-seneca-service/createSenecaService.js:383-411 | Resolves iff the exit code is 0; a `null` code rejects. A rejection carries `npm ` + the args joined by spaces. |
| `Installer.FailedCommandLine` | packages/create-seneca-service/createSenecaService.js:403-407 | The reported command is `npm`, the joined flags, the joined dependencies, and ` --verbose` when verbose. |
| `Installer.RunInstallCommand` | packages/create-seneca-service/createSenecaService.js:139-153 | For `run`'s list, the failing command names the base packages and then the reference. |
| `CaretPin.CaretOf` | packages/create-seneca-service/createSenecaService.js:421-430 | The stored version is `^v` iff semver accepts `^v` as a range; otherwise it is `v` unchanged. |
| `CaretPin.MakeCaretRange` | packages/create-seneca-service/createSenecaService.js:413-433 | Fatal iff the key is absent. Otherwise the key set is unchanged, that key becomes its caret form, and every other key keeps its value. |
| `CaretPin.PinEach` | packages/create-seneca-service/createSenecaService.js:450-453 | The sequential calls succeed iff every name is present. Failure reports the first missing name. Success rewrites exactly the listed keys and keeps the key set. |
| `CaretPin.SetCaretRangeForRuntimeDeps` | packages/create-seneca-service/createSenecaService.js:435-455 | Checks run in order: missing `dependencies` is fatal, then a missing package name, then the first missing runtime dependency. Success keeps the key set and rewrites exactly the four runtime keys. |
| `CaretPin.CaretIdempotent` | packages/create-seneca-service/createSenecaService.js:421-430 | A second caret is never added when semver refuses `^^v`. |
| `CaretPin.PinEachIdempotent` | packages/create-seneca-service/createSenecaService.js:450-453 | Pinning the same names twice equals pinning them once. |
| `CaretPin.PinIdempotent` | packages/create-seneca-service/createSenecaService.js:435-455 | A second pin step over the written dependencies succeeds and writes them back unchanged. |
| `CaretPin.MissingAdapterIsFatal` | packages/create-seneca-service/createSenecaService.js:450-453 | Only `seneca-pino-adapter` is missing, so the pin step fails with exactly that error. |
| `Rollback.Classify` | packages/create-seneca-service/createSenecaService.js:181-186 | "Command failed" iff `reason.command` is a non-empty string, carrying that command; otherwise "unexpected". |
| `Rollback.DeletedEntries` | packages/create-seneca-service/createSenecaService.js:191-202 | The deleted entries are exactly the listed names that are `package.json` or `node_modules`. |
| `Rollback.HandleFailure` | packages/create-seneca-service/createSenecaService.js:177-219 | Exit status 1 in every case. A listed entry survives iff it is not a known generated name, and nothing new appears. The root is removed iff every listed entry was generated. |
| `Rollback.RollbackIsSetDifference` | packages/create-seneca-service/createSenecaService.js:190-215 | The survivors are the listing minus `{package.json, node_modules}`. The root goes iff that set is empty. |
| `Rollback.UnexpectedFailureStillRollsBack` | packages/create-seneca-service/createSenecaService.js:181-218 | A rejection without `command` is "unexpected", still deletes both generated names, and exits 1. |
| `Rollback.RollbackRetryIsNoOp` | packages/create-seneca-service/createSenecaService.js:188-215 | Handling a second failure over what the first rollback left deletes nothing and keeps every survivor. |
| `Bootstrap.RunArgsAsWritten` | packages/create-seneca-service/createSenecaService.js:134-137 | With the four-argument call, `originalDirectory` is undefined and `verbose` is the working directory's truthiness. |
| `Bootstrap.RunArgsIntended` | packages/create-seneca-service/createSenecaService.js:134-137 | The intended call passes `verbose` falsy and `originalDirectory` as the working directory. |
| `Bootstrap.CallSiteForcesVerbose` | packages/create-seneca-service/createSenecaService.js:134-137 | As written, npm always gets `--verbose` last; as intended, it never does. |
| `Bootstrap.CallSiteBreaksFileSpecifiers` | packages/create-seneca-service/createSenecaService.js:134-138 | As written, `file:<path>` throws for a relative path and ignores the working directory for an absolute one; as intended, it resolves against the working directory. |
| `Bootstrap.AfterName` | packages/create-seneca-service/createSenecaService.js:157-176 | Delegation happens only after exit code 0 and an `init` that does not throw. Pinning happens only after a successful install. A failed install rolls back with the npm command as the reason. |
| `Bootstrap.Proceed` | packages/create-seneca-service/createSenecaService.js:157-220 | Crashes exactly when the dispatch throws or the `file:` manifest cannot be read. A rejection of the tarball branch, which happens only when the filename fallback at :352-354 fails after a failed archive read, rolls back. Every exit status it decides is 1, and delegation and pinning need a successful install. |
| `Bootstrap.Run` | packages/create-seneca-service/createSenecaService.js:137-220 | As written: a throw in resolution and every tarball-shaped reference crash `run`. Every exit status `run` decides is 1. A rollback keeps exactly the non-generated listed entries. Delegation and pinning need a successful install. |
| `Bootstrap.RunIntended` | packages/create-seneca-service/createSenecaService.js:137-220 | As intended: resolution never throws. A failed archive read falls back to a filename-derived name, and a rejection of the tarball branch (only when that fallback fails too) rolls back. Exit status 1 and the allow-list hold as for `Run`. |
| `Bootstrap.RunAgreesWithIntended` | packages/create-seneca-service/createSenecaService.js:137-220 | With a defined original directory, a specifier that resolves as written to a non-tarball reference runs identically under both readings. |
| `Bootstrap.TarballSpecifierCrashes` | packages/create-seneca-service/createSenecaService.js:329-331 | As written, a tarball specifier crashes `run` with exit status 1 and no rollback. As intended, a rejection of the tarball branch (the archive read and the filename fallback both failing) rolls back. |
| `Bootstrap.CallSiteCrashesOnRelativeFile` | packages/create-seneca-service/createSenecaService.js:134-138 | Through the four-argument call, an empty or relative `file:` path crashes the whole run before npm starts. |
| `Bootstrap.InstallFailureRollsBack` | packages/create-seneca-service/createSenecaService.js:157-186 | A non-zero npm exit rolls back, classified as a failed command. The command is the full npm command line ending in the reference. |
| `Bootstrap.VersionIsInstalledLast` | packages/create-seneca-service/createSenecaService.js:138-153 | A valid version `v` puts `seneca-scripts@v` right after the six base packages on npm's argv. |
| `Bootstrap.GitUrlWithoutDotGitCrashes` | packages/create-seneca-service/createSenecaService.js:137-157 | A `git+` specifier with no `.git` passes resolution unchecked and then crashes `run` with exit status 1, before any rollback is in place. |
| `Bootstrap.InitErrorIsUnexpected` | packages/create-seneca-service/createSenecaService.js:163-186 | An `init` error without `command` is rolled back as unexpected, with exit status 1. |
| `Bootstrap.MissingAdapterStopsRun` | packages/create-seneca-service/createSenecaService.js:163-164 | After a good install, a missing `seneca-pino-adapter` ends the run in the pin step. Nothing is written and nothing is rolled back. |
| `Bootstrap.DefaultRunDelegates` | packages/create-seneca-service/createSenecaService.js:137-175 | With no specifier and a complete manifest, the run delegates under `seneca-scripts`. The written dependencies keep their keys and every non-runtime value. |

## Left out

- Command-line parsing and help text (createSenecaService.js:22-58) and the entry shim's Node version check (index.js:36-53): argument plumbing only.
- `checkThatNpmCanReadCwd`, `checkNpmVersion` and the Node version check in `createApp` (createSenecaService.js:97-132, 232-310): they spawn processes and read the environment.
- `checkAppName` and `isSafeToCreateProjectIn` (createSenecaService.js:222-230): they always return `true`.
- The tarball branch of `getPackageName` (createSenecaService.js:330-361) would stream, download and extract archives. As written it never gets that far (see Findings).
  - Its helpers `getTemporaryDirectory` and `extractStream` are declared nowhere in the module.
  - Its filename fallback regex is not modelled. It yields `null`, and then throws, for a path without `/`.
  - In the intended reading, the branch's outcome is an input (`World.archiveName`): the archive's name, the name its filename fallback derives (:346-360), or a rejection when that fallback fails too.
- Module loading: `require` of `<path>/package.json` in the `file:` branch (createSenecaService.js:372-378) and of `scripts/init.js` (createSenecaService.js:166-175). Their outcomes are inputs (`World.manifestName`, `World.initThrows`).
- Process and filesystem effects are not performed: `spawn`, `fs.removeSync`, `process.chdir`, `process.exit`, the console output, and the JSON reads and writes of `package.json` (createSenecaService.js:89-95, 401, 455). Only their inputs and decisions are modelled.
- `errorLogFilePatterns` (createSenecaService.js:16-20) is declared but never used.
- The template files under `packages/seneca-scripts/template`: framework wiring with no bootstrap logic.
- `semver.valid`, `semver.validRange` and `path.resolve` are parameters. Apart from `path.resolve`'s handling of an `undefined` base, no behaviour of theirs is assumed.
- InstallPackage.ResolveWithBase: absoluteness is the POSIX test (a leading `/`); Windows drive and UNC paths are not modelled. For an absolute path Node ignores the base, and the model asks the resolver with `/` as the base.
- The manifest is reduced to its `dependencies`, with string values. Fields the pin step never reads are not represented. A `dependencies` that is `null` (a TypeError in the source) is not modelled.
- A JavaScript object lookup `dependencies[packageName]` also finds inherited properties such as `constructor`; a Dafny map lookup does not.
- `Bootstrap.Run` takes `run`'s declared parameters, with `originalDirectory` optional. The four-argument call site is modelled by `Bootstrap.RunArgsAsWritten`, and its arguments can be passed to `Run` (see Findings).
- CaretPin.PinIdempotent: stated only under the assumption that semver rejects `^^v` wherever it accepts `^v`. That is semver's behaviour, but semver is not modelled.
- PackageName.GitUrlName: characterises the name only for URLs whose prefix and fragment contain no `.git`. Other URLs are described only by the contracts of `GitMatchFrom` and `GitRepoName`.

## Findings

| source | as written | input that shows it | evidently intended | confidence | as-written member | corrected member |
|---|---|---|---|---|---|---|
| packages/create-seneca-service/createSenecaService.js:134-137 | `run` is declared with `(root, appName, version, verbose, originalDirectory)` but called with four arguments. The working directory lands in `verbose` and `originalDirectory` is `undefined`. | Any run from a non-empty working directory: npm gets `--verbose`. `--scripts-version file:../scripts`: `path.resolve(undefined, "../scripts")` throws. (An absolute path such as `file:/opt/scripts` still resolves.) | Pass `createApp`'s `verbose` (undefined) and then the working directory as `originalDirectory`. | high, not executed | `Bootstrap.RunArgsAsWritten`, exhibited by `Bootstrap.CallSiteForcesVerbose`, `Bootstrap.CallSiteBreaksFileSpecifiers` and `Bootstrap.CallSiteCrashesOnRelativeFile` | `Bootstrap.RunArgsIntended` |
| packages/create-seneca-service/createSenecaService.js:317-321 | `version.match(/^file:(.*)?$/)[1]` is `undefined` for an empty path, and `path.resolve` rejects it with a TypeError. (A path holding a line terminator makes the match `null`, so indexing it throws too; the corrected member resolves that path as well.) | `--scripts-version file:` | `file:` + resolve(originalDirectory, ""), i.e. the original directory itself. The optional group shows an empty path was anticipated. | medium, not executed | `InstallPackage.GetInstallPackageAsWritten`, exhibited by `InstallPackage.EmptyFilePathThrows` | `InstallPackage.GetInstallPackage` |
| packages/create-seneca-service/createSenecaService.js:329-331 | The tarball branch calls `getTemporaryDirectory()`, and later `extractStream`, neither of which is declared or imported anywhere in the module. The ReferenceError is thrown synchronously, before `.catch` is attached. | `--scripts-version ./seneca-scripts-0.1.0.tgz`: `run` crashes with exit status 1; npm never runs and nothing is rolled back. | Create a temporary directory, extract the archive, and read its `package.json` name. A failed download, extraction or read falls back to a name derived from the filename (:346-360), and the branch rejects into the failure handler only when that fallback fails too. | high, not executed | `Bootstrap.Run`, exhibited by `Bootstrap.TarballSpecifierCrashes` | `Bootstrap.RunIntended` |

=== FILE: bootstrap.dfy ===
/**
 * `run` as a whole: resolve the reference, extract its name, install, pin, hand over to the
 * installed package's `scripts/init.js`, and roll back when the promise chain rejects.
 * Everything the chain learns from outside (archive contents, npm's exit status, the
 * manifest npm leaves behind, what `init` throws, the root's listing) is part of `World`.
 */
module Bootstrap {
  import opened Wrappers
  import opened Strings
  import opened Externals
  import opened InstallPackage
  import opened PackageName
  import opened Installer
  import opened CaretPin
  import opened Rollback

  /** The arguments of `run(root, appName, version, verbose, originalDirectory)` that steer it. */
  datatype RunArgs = RunArgs(version: Option<string>, verbose: bool, originalDirectory: Option<string>)

  /**
   * What `run` receives from the call `run(root, appName, version, originalDirectory)` in
   * `createApp`: one argument short, so the working directory lands in `verbose` (truthy
   * unless empty) and `originalDirectory` is `undefined`.
   */
  function RunArgsAsWritten(version: Option<string>, cwd: string): (a: RunArgs)
    ensures a.version == version && a.originalDirectory.None?
    ensures a.verbose <==> cwd != ""
  {
    RunArgs(version, cwd != "", None)
  }

  /**
   * The evidently intended call `run(root, appName, version, verbose, originalDirectory)`:
   * `createApp`'s own `verbose` is never supplied, so it is falsy.
   */
  function RunArgsIntended(version: Option<string>, cwd: string): (a: RunArgs)
    ensures a.version == version && a.originalDirectory == Some(cwd) && !a.verbose
  {
    RunArgs(version, false, Some(cwd))
  }

  /** As written, every install runs npm with `--verbose`; as intended, never. */
  lemma CallSiteForcesVerbose(version: Option<string>, cwd: string, deps: seq<string>)
    requires cwd != ""
    ensures InstallArgs(deps, RunArgsAsWritten(version, cwd).verbose) == InstallFlags + deps + [VerboseFlag]
    ensures InstallArgs(deps, RunArgsIntended(version, cwd).verbose) == InstallFlags + deps
  {
  }

  /**
   * As written, a `file:` specifier with a relative path throws in
   * `path.resolve(undefined, …)`, and an absolute one ignores the working directory; as
   * intended, both resolve against the working directory.
   */
  lemma CallSiteBreaksFileSpecifiers(path: string, cwd: string, sem: Semver, resolve: Resolve)
    requires sem.valid(FilePrefix + path).None?
    requires path != "" && NoLineTerminator(path)
    ensures var a := RunArgsAsWritten(Some(FilePrefix + path), cwd);
            !IsAbsolute(path) ==> GetInstallPackageAsWritten(a.version, a.originalDirectory, sem, resolve) == Err(TypeError)
    ensures var a := RunArgsAsWritten(Some(FilePrefix + path), cwd);
            IsAbsolute(path) ==> GetInstallPackageAsWritten(a.version, a.originalDirectory, sem, resolve) == Ok(FilePrefix + resolve("/", path))
    ensures var a := RunArgsIntended(Some(FilePrefix + path), cwd);
            GetInstallPackageAsWritten(a.version, a.originalDirectory, sem, resolve) == Ok(FilePrefix + resolve(cwd, path))
  {
    assert (FilePrefix + path)[|FilePrefix|..] == path;
  }

  /** What one run learns from outside the model. */
  datatype World = World(
    archiveName: Result<string, Reason>,  // how the tarball branch would settle: the archive's or the filename's name, or a rejection
    manifestName: Option<string>,         // `require(<dir>/package.json).name`; None when `require` throws
    installExit: Option<int>,             // the npm child's exit code; None when it is `null`
    installed: Manifest,                  // `package.json` as npm leaves it
    initThrows: Option<Reason>,           // what loading or calling `scripts/init.js` throws, if anything
    rootListing: seq<string>)             // `readdirSync(root)` when the failure handler runs

  /** How a run ends. */
  datatype RunOutcome =
    | Crashed                                              // a synchronous throw escapes `run`: no rollback
    | PinFatal(fatal: Fatal)                               // `process.exit(1)` in the pin step: no rollback, no write
    | Delegated(packageName: string, written: map<string, string>)  // pinned dependencies written, `init` called
    | Aborted(abort: Abort)                                // the `.catch` handler ran

  /** The process exit status a run decides; after delegation it is up to `init`. */
  function ExitStatus(o: RunOutcome): Option<int> {
    match o
    case Crashed => Some(1)
    case PinFatal(_) => Some(1)
    case Delegated(_, _) => None
    case Aborted(a) => Some(a.exitCode)
  }

  /** The `.then` chain once the package name is known. */
  function AfterName(name: string, deps: seq<string>, verbose: bool, sem: Semver, w: World): (o: RunOutcome)
    ensures o.Crashed? == false
    ensures o.Delegated? ==> w.installExit == Some(0) && w.initThrows.None? && o.packageName == name
    ensures o.PinFatal? ==> w.installExit == Some(0)
    ensures w.installExit != Some(0) ==>
              o == Aborted(HandleFailure(Reason(Some(Npm + " " + Join(InstallArgs(deps, verbose), " "))), w.rootListing))
  {
    match Install(deps, verbose, w.installExit)
    case Failed(command) => Aborted(HandleFailure(Reason(Some(command)), w.rootListing))
    case Installed =>
      match SetCaretRangeForRuntimeDeps(w.installed, name, sem)
      case Err(f) => PinFatal(f)
      case Ok(written) =>
        match w.initThrows
        case None => Delegated(name, written)
        case Some(reason) => Aborted(HandleFailure(reason, w.rootListing))
  }

  /**
   * The promise chain of `run` from `getPackageName` on, for a name source the dispatch
   * chose. Its tarball branch is taken as intended: a failed download, extraction or
   * manifest read falls back to a name derived from the filename, and the branch rejects
   * into the failure handler only when that fallback fails too.
   */
  function Proceed(src: NameSource, deps: seq<string>, verbose: bool, sem: Semver, w: World): (o: RunOutcome)
    ensures o.Crashed? <==> src.Throws? || (src.FromManifest? && w.manifestName.None?)
    ensures src.FromArchive? && w.archiveName.Err? ==> o == Aborted(HandleFailure(w.archiveName.error, w.rootListing))
    ensures ExitStatus(o).Some? ==> ExitStatus(o) == Some(1)
    ensures o.Aborted? ==> forall f | f in w.rootListing :: f in o.abort.remaining <==> f !in KnownGeneratedFiles
    ensures o.Delegated? ==> w.installExit == Some(0) && w.initThrows.None?
    ensures o.PinFatal? ==> w.installExit == Some(0)
  {
    match src
    case Throws => Crashed
    case Named(name) => AfterName(name, deps, verbose, sem, w)
    case FromManifest(_) =>
      (match w.manifestName
       case None => Crashed
       case Some(name) => AfterName(name, deps, verbose, sem, w))
    case FromArchive =>
      (match w.archiveName
       case Err(reason) => Aborted(HandleFailure(reason, w.rootListing))
       case Ok(name) => AfterName(name, deps, verbose, sem, w))
  }

  /**
   * `run(root, appName, version, verbose, originalDirectory)` as written. A throw in
   * `getInstallPackage` escapes at once. The tarball branch calls `getTemporaryDirectory`,
   * which the module never declares or imports, so it throws a ReferenceError before any
   * promise exists: like the other synchronous throws, nothing is installed or rolled back.
   */
  function Run(version: Option<string>, verbose: bool, originalDirectory: Option<string>,
               sem: Semver, resolve: Resolve, w: World): (o: RunOutcome)
    ensures GetInstallPackageAsWritten(version, originalDirectory, sem, resolve).Err? ==> o == Crashed
    ensures var ref := GetInstallPackageAsWritten(version, originalDirectory, sem, resolve);
            ref.Ok? && IsTarball(ref.value) ==> o == Crashed
    ensures ExitStatus(o).Some? ==> ExitStatus(o) == Some(1)
    ensures o.Aborted? ==> forall f | f in w.rootListing :: f in o.abort.remaining <==> f !in KnownGeneratedFiles
    ensures o.Delegated? ==> w.installExit == Some(0) && w.initThrows.None?
    ensures o.PinFatal? ==> w.installExit == Some(0)
  {
    match GetInstallPackageAsWritten(version, originalDirectory, sem, resolve)
    case Err(_) => Crashed
    case Ok(ref) =>
      if IsTarball(ref) then Crashed
      else Proceed(PackageNameOf(ref), AllDependencies(ref), verbose, sem, w)
  }

  /**
   * `run` as evidently intended: resolution never throws, and a tarball reference is read
   * for its name, with the filename as fallback, instead of crashing; only when both fail
   * does the branch reject into the failure handler.
   */
  function RunIntended(version: Option<string>, verbose: bool, originalDirectory: string,
                       sem: Semver, resolve: Resolve, w: World): (o: RunOutcome)
    ensures var ref := GetInstallPackage(version, originalDirectory, sem, resolve);
            IsTarball(ref) && w.archiveName.Err? ==> o == Aborted(HandleFailure(w.archiveName.error, w.rootListing))
    ensures ExitStatus(o).Some? ==> ExitStatus(o) == Some(1)
    ensures o.Aborted? ==> forall f | f in w.rootListing :: f in o.abort.remaining <==> f !in KnownGeneratedFiles
  {
    var ref := GetInstallPackage(version, originalDirectory, sem, resolve);
    Proceed(PackageNameOf(ref), AllDependencies(ref), verbose, sem, w)
  }

  /**
   * The two readings of `run` differ only where the findings say: with a defined original
   * directory, a specifier that resolves as written to a non-tarball reference runs the same.
   */
  lemma RunAgreesWithIntended(version: Option<string>, verbose: bool, originalDirectory: string,
                              sem: Semver, resolve: Resolve, w: World)
    requires GetInstallPackageAsWritten(version, Some(originalDirectory), sem, resolve).Ok?
    requires !IsTarball(GetInstallPackage(version, originalDirectory, sem, resolve))
    ensures Run(version, verbose, Some(originalDirectory), sem, resolve, w)
            == RunIntended(version, verbose, originalDirectory, sem, resolve, w)
  {
  }

  /**
   * A tarball specifier crashes `run` as written, with exit status 1 and no rollback. The
   * intended chain rolls back only when the tarball branch rejects, which needs both the
   * archive read and the filename fallback to fail.
   */
  lemma TarballSpecifierCrashes(archive: string, verbose: bool, originalDirectory: Option<string>,
                                sem: Semver, resolve: Resolve, w: World)
    requires sem.valid(archive).None? && !StartsWith(archive, FilePrefix)
    requires IsTarball(archive)
    ensures Run(Some(archive), verbose, originalDirectory, sem, resolve, w) == Crashed
    ensures ExitStatus(Run(Some(archive), verbose, originalDirectory, sem, resolve, w)) == Some(1)
    ensures forall dir: string | w.archiveName.Err? ::
              RunIntended(Some(archive), verbose, dir, sem, resolve, w) == Aborted(HandleFailure(w.archiveName.error, w.rootListing))
  {
  }

  /**
   * Through the call site as written, a `file:` specifier whose path is empty or relative
   * crashes the whole run before npm is started.
   */
  lemma CallSiteCrashesOnRelativeFile(path: string, cwd: string, sem: Semver, resolve: Resolve, w: World)
    requires sem.valid(FilePrefix + path).None?
    requires !IsAbsolute(path)
    ensures var a := RunArgsAsWritten(Some(FilePrefix + path), cwd);
            Run(a.version, a.verbose, a.originalDirectory, sem, resolve, w) == Crashed
  {
    assert (FilePrefix + path)[|FilePrefix|..] == path;
  }

  /**
   * A `git+` reference with no `.git` in it is not rejected up front: the name regex finds
   * no match and the TypeError escapes `run` before any rollback is in place.
   */
  lemma GitUrlWithoutDotGitCrashes(url: string, verbose: bool, originalDirectory: Option<string>,
                                   sem: Semver, resolve: Resolve, w: World)
    requires ValidSemver(sem, Some(url)).None?
    requires StartsWith(url, GitPrefix) && !IsTarball(url)
    requires forall i :: !OccursAt(url, ".git", i)
    ensures Run(Some(url), verbose, originalDirectory, sem, resolve, w) == Crashed
    ensures ExitStatus(Run(Some(url), verbose, originalDirectory, sem, resolve, w)) == Some(1)
  {
    assert url[0] == 'g';
    assert !IsFileSpecifier(Some(url));
    GitNameNeedsDotGit(url);
  }

  /**
   * A failed npm install rolls back and reports the npm command line, which ends with the
   * resolved reference (and `--verbose` when asked for).
   */
  lemma InstallFailureRollsBack(version: Option<string>, verbose: bool, originalDirectory: Option<string>,
                                sem: Semver, resolve: Resolve, w: World, ref: string)
    requires GetInstallPackageAsWritten(version, originalDirectory, sem, resolve) == Ok(ref)
    requires PackageNameOf(ref).Named?
    requires w.installExit != Some(0)
    ensures var command := Npm + " " + Join(InstallFlags, " ") + " " + Join(BaseDependencies, " ") + " " + ref + VerboseSuffix(verbose);
            Run(version, verbose, originalDirectory, sem, resolve, w) == Aborted(HandleFailure(Reason(Some(command)), w.rootListing))
            && Run(version, verbose, originalDirectory, sem, resolve, w).abort.kind == CommandFailed(command)
  {
    RunInstallCommand(ref, verbose, w.installExit);
  }

  /** A valid version `v` puts `seneca-scripts@v` last on npm's dependency list. */
  lemma VersionIsInstalledLast(version: Option<string>, v: string, verbose: bool, originalDirectory: string,
                               sem: Semver, resolve: Resolve)
    requires ValidSemver(sem, version) == Some(v)
    ensures var args := InstallArgs(AllDependencies(GetInstallPackage(version, originalDirectory, sem, resolve)), verbose);
            args[|InstallFlags| + |BaseDependencies|] == ScriptsPackage + "@" + v
  {
  }

  /**
   * A rejection without a `command` (here: `init` throwing a plain error) is reported as
   * unexpected, still rolls back, and exits with status 1.
   */
  lemma InitErrorIsUnexpected(name: string, deps: seq<string>, verbose: bool, sem: Semver, w: World)
    requires w.installExit == Some(0)
    requires w.installed.dependencies.Some? && name in w.installed.dependencies.value
    requires forall n | n in RuntimeDependencies :: n in w.installed.dependencies.value
    requires w.initThrows == Some(Reason(None))
    ensures AfterName(name, deps, verbose, sem, w).Aborted?
    ensures AfterName(name, deps, verbose, sem, w).abort.kind == Unexpected
    ensures ExitStatus(AfterName(name, deps, verbose, sem, w)) == Some(1)
  {
  }

  /**
   * A manifest without `seneca-pino-adapter` after a good install stops the run in the pin
   * step: nothing is written and nothing is rolled back.
   */
  lemma MissingAdapterStopsRun(name: string, deps: map<string, string>, installDeps: seq<string>,
                               verbose: bool, sem: Semver, w: World)
    requires w.installExit == Some(0) && w.installed == Manifest(Some(deps))
    requires name in deps && "seneca" in deps && "seneca-balance-client" in deps && "pino" in deps
    requires "seneca-pino-adapter" !in deps
    ensures AfterName(name, installDeps, verbose, sem, w) == PinFatal(MissingDependency("seneca-pino-adapter"))
  {
  }

  /**
   * The default run: with no specifier, npm installs `seneca-scripts`, and on success the
   * manifest written back has the runtime dependencies pinned and the rest untouched.
   */
  lemma DefaultRunDelegates(originalDirectory: Option<string>, sem: Semver, resolve: Resolve, w: World)
    requires w.installExit == Some(0) && w.initThrows.None?
    requires w.installed.dependencies.Some?
    requires ScriptsPackage in w.installed.dependencies.value
    requires forall n | n in RuntimeDependencies :: n in w.installed.dependencies.value
    ensures var o := Run(None, false, originalDirectory, sem, resolve, w);
            && o.Delegated? && o.packageName == ScriptsPackage
            && o.written.Keys == w.installed.dependencies.value.Keys
            && forall k | k in o.written && k !in RuntimeDependencies :: o.written[k] == w.installed.dependencies.value[k]
  {
    DefaultScriptsName();
  }
}

=== FILE: caret_pin.dfy ===
/**
 * Version pinning after install (`makeCaretRange`, `setCaretRangeForRuntimeDeps`): the
 * four runtime dependencies npm saved with exact versions are widened to caret ranges.
 * Missing entries are fatal (`process.exit(1)`) and stop the run before anything is
 * written; reading and writing `package.json` is left out.
 */
module CaretPin {
  import opened Wrappers
  import opened Externals

  /** Why the pin step calls `process.exit(1)`. */
  datatype Fatal =
    | MissingDependencies               // `package.json` has no `dependencies`
    | PackageNotFound(name: string)     // the installed scripts package is not a dependency
    | MissingDependency(name: string)   // a runtime dependency to pin is absent

  /** `package.json` as the pin step sees it: only its `dependencies` object is read. */
  datatype Manifest = Manifest(dependencies: Option<map<string, string>>)

  /** The dependencies whose versions become caret ranges, in the order they are pinned. */
  const RuntimeDependencies: seq<string> := ["seneca", "seneca-balance-client", "pino", "seneca-pino-adapter"]

  /** The version `makeCaretRange` stores: `^v` when semver accepts it as a range, else `v` unchanged. */
  function CaretOf(sem: Semver, v: string): (r: string)
    ensures r == v || r == "^" + v
    ensures r == "^" + v <==> sem.validRange("^" + v)
  {
    if sem.validRange("^" + v) then "^" + v else v
  }

  /** `makeCaretRange(dependencies, name)`: rewrite exactly one present key. */
  function MakeCaretRange(deps: map<string, string>, name: string, sem: Semver): (r: Result<map<string, string>, Fatal>)
    ensures r.Err? <==> name !in deps
    ensures r.Err? ==> r.error == MissingDependency(name)
    ensures r.Ok? ==> r.value.Keys == deps.Keys && r.value[name] == CaretOf(sem, deps[name])
    ensures r.Ok? ==> forall k | k in deps && k != name :: r.value[k] == deps[k]
  {
    if name !in deps then Err(MissingDependency(name))
    else Ok(deps[name := CaretOf(sem, deps[name])])
  }

  predicate Distinct(names: seq<string>) {
    forall i, j | 0 <= i < j < |names| :: names[i] != names[j]
  }

  /** The first of `names` absent from `deps`, if any. */
  function FirstMissing(deps: map<string, string>, names: seq<string>): (r: Option<nat>)
    ensures r.Some? ==> r.value < |names| && names[r.value] !in deps
    ensures r.Some? ==> forall j | 0 <= j < r.value :: names[j] in deps
    ensures r.None? <==> forall n | n in names :: n in deps
    decreases |names|
  {
    if names == [] then None
    else if names[0] !in deps then Some(0)
    else match FirstMissing(deps, names[1..])
      case None => None
      case Some(i) => Some(i + 1)
  }

  /** The consecutive `makeCaretRange` calls: the first absent name is fatal. */
  function PinEach(deps: map<string, string>, names: seq<string>, sem: Semver): (r: Result<map<string, string>, Fatal>)
    requires Distinct(names)
    ensures r.Ok? <==> FirstMissing(deps, names).None?
    ensures r.Err? ==> r.error == MissingDependency(names[FirstMissing(deps, names).value])
    ensures r.Ok? ==> r.value.Keys == deps.Keys
    ensures r.Ok? ==> forall k | k in deps :: r.value[k] == (if k in names then CaretOf(sem, deps[k]) else deps[k])
    decreases |names|
  {
    if names == [] then Ok(deps)
    else match MakeCaretRange(deps, names[0], sem)
      case Err(e) => Err(e)
      case Ok(next) =>
        assert next.Keys == deps.Keys;
        assert forall n | n in names[1..] :: n != names[0];
        assert forall k :: k in names <==> k == names[0] || k in names[1..];
        assert FirstMissing(next, names[1..]) == FirstMissing(deps, names[1..]) by {
          FirstMissingSameKeys(deps, next, names[1..]);
        }
        PinEach(next, names[1..], sem)
  }

  /** Only the key set decides which name is missing first. */
  lemma FirstMissingSameKeys(a: map<string, string>, b: map<string, string>, names: seq<string>)
    requires a.Keys == b.Keys
    ensures FirstMissing(a, names) == FirstMissing(b, names)
  {
  }

  /**
   * `setCaretRangeForRuntimeDeps(packageName)`: the dependencies to write back, or the
   * fatal error that stops the process before the write.
   */
  function SetCaretRangeForRuntimeDeps(m: Manifest, packageName: string, sem: Semver): (r: Result<map<string, string>, Fatal>)
    ensures r.Ok? <==> && m.dependencies.Some?
                       && packageName in m.dependencies.value
                       && forall n | n in RuntimeDependencies :: n in m.dependencies.value
    ensures m.dependencies.None? ==> r == Err(MissingDependencies)
    ensures m.dependencies.Some? && packageName !in m.dependencies.value ==> r == Err(PackageNotFound(packageName))
    ensures m.dependencies.Some? && packageName in m.dependencies.value && r.Err? ==>
              FirstMissing(m.dependencies.value, RuntimeDependencies).Some?
              && r.error == MissingDependency(RuntimeDependencies[FirstMissing(m.dependencies.value, RuntimeDependencies).value])
    ensures r.Ok? ==> r.value.Keys == m.dependencies.value.Keys
    ensures r.Ok? ==> forall k | k in m.dependencies.value ::
              r.value[k] == (if k in RuntimeDependencies then CaretOf(sem, m.dependencies.value[k]) else m.dependencies.value[k])
  {
    match m.dependencies
    case None => Err(MissingDependencies)
    case Some(deps) =>
      if packageName !in deps then Err(PackageNotFound(packageName))
      else PinEach(deps, RuntimeDependencies, sem)
  }

  /** semver does not accept `^^v` as a range where it accepts `^v`. */
  predicate RefusesDoubleCaret(sem: Semver, v: string) {
    sem.validRange("^" + v) ==> !sem.validRange("^^" + v)
  }

  /** A caret is added at most once when semver refuses a doubled caret. */
  lemma CaretIdempotent(sem: Semver, v: string)
    requires RefusesDoubleCaret(sem, v)
    ensures CaretOf(sem, CaretOf(sem, v)) == CaretOf(sem, v)
  {
    if sem.validRange("^" + v) {
      assert "^" + ("^" + v) == "^^" + v;
    }
  }

  /** Pinning the same names twice adds no second caret. */
  lemma PinEachIdempotent(deps: map<string, string>, names: seq<string>, sem: Semver)
    requires Distinct(names)
    requires forall k | k in deps :: RefusesDoubleCaret(sem, deps[k])
    requires PinEach(deps, names, sem).Ok?
    ensures PinEach(PinEach(deps, names, sem).value, names, sem) == PinEach(deps, names, sem)
  {
    var pinned := PinEach(deps, names, sem).value;
    FirstMissingSameKeys(deps, pinned, names);
    var again := PinEach(pinned, names, sem).value;
    forall k | k in pinned
      ensures again[k] == pinned[k]
    {
      var v := deps[k];
      assert pinned[k] == (if k in names then CaretOf(sem, v) else v);
      assert again[k] == (if k in names then CaretOf(sem, pinned[k]) else pinned[k]);
      if k in names {
        CaretIdempotent(sem, v);
      }
    }
    assert again.Keys == pinned.Keys;
    assert again == pinned;
  }

  /**
   * Pinning is idempotent when semver refuses a doubled caret: a second run over the
   * pinned dependencies writes them back unchanged.
   */
  lemma PinIdempotent(deps: map<string, string>, packageName: string, sem: Semver)
    requires packageName in deps && forall n | n in RuntimeDependencies :: n in deps
    requires forall k | k in deps :: RefusesDoubleCaret(sem, deps[k])
    ensures SetCaretRangeForRuntimeDeps(Manifest(Some(deps)), packageName, sem).Ok?
    ensures var pinned := SetCaretRangeForRuntimeDeps(Manifest(Some(deps)), packageName, sem).value;
            SetCaretRangeForRuntimeDeps(Manifest(Some(pinned)), packageName, sem) == Ok(pinned)
  {
    var first := PinEach(deps, RuntimeDependencies, sem);
    PinEachIdempotent(deps, RuntimeDependencies, sem);
    assert packageName in first.value;
  }

  /**
   * The fatal checks come in source order: with the package and the first three runtime
   * dependencies present, a missing `seneca-pino-adapter` is what stops the run.
   */
  lemma MissingAdapterIsFatal(deps: map<string, string>, packageName: string, sem: Semver)
    requires packageName in deps
    requires "seneca" in deps && "seneca-balance-client" in deps && "pino" in deps
    requires "seneca-pino-adapter" !in deps
    ensures SetCaretRangeForRuntimeDeps(Manifest(Some(deps)), packageName, sem) == Err(MissingDependency("seneca-pino-adapter"))
  {
  }
}

=== FILE: externals.dfy ===
/**
 * The library calls the bootstrap makes: the `semver` package and Node's `path.resolve`.
 * They enter every operation as values, so each property holds for whatever those
 * libraries compute. The one behaviour of `path.resolve` the model does fix, how it treats
 * an `undefined` base, is `InstallPackage.ResolveWithBase`.
 */
module Externals {
  import opened Wrappers

  /**
   * `valid(s)` is `semver.valid(s)`: the normalised version, or None for `null`.
   * `validRange(s)` is the truthiness of `semver.validRange(s)`, which is either
   * `null` or a non-empty range string.
   */
  datatype Semver = Semver(valid: string -> Option<string>, validRange: string -> bool)

  /** `path.resolve(base, p)` for two defined string arguments. */
  type Resolve = (string, string) -> string
}

=== FILE: install_package.dfy ===
/**
 * Specifier resolution (`getInstallPackage`): the optional `--scripts-version` string
 * becomes the reference handed to npm. Four cases, tried in order: a valid semantic
 * version, a `file:` path, any other non-empty string, no specifier at all.
 */
module InstallPackage {
  import opened Wrappers
  import opened Strings
  import opened Externals

  /** The package installed when no specifier is given. */
  const ScriptsPackage: string := "seneca-scripts"
  const FilePrefix: string := "file:"

  /** What `if (semver.valid(version))` lets through: a non-empty normalised version. */
  function ValidSemver(sem: Semver, version: Option<string>): (r: Option<string>)
    ensures r.Some? ==> version.Some? && r.value != "" && sem.valid(version.value) == r
    ensures version.Some? && sem.valid(version.value).Some? && sem.valid(version.value).value != "" ==> r.Some?
  {
    match version
    case None => None
    case Some(s) =>
      var v := sem.valid(s);
      if v.Some? && v.value != "" then v else None
  }

  /** `version && version.match(/^file:/)`: a present specifier beginning with `file:`. */
  predicate IsFileSpecifier(version: Option<string>) {
    version.Some? && StartsWith(version.value, FilePrefix)
  }

  /**
   * `version.match(/^file:(.*)?$/)[1]` as JavaScript evaluates it. The optional group may
   * not match the empty string, so an empty path yields `undefined`; a path holding a line
   * terminator makes the whole match fail (`null`), and indexing it throws.
   */
  function FilePathCapture(s: string): (r: Option<string>)
    requires StartsWith(s, FilePrefix)
    ensures r.Some? <==> s != FilePrefix && NoLineTerminator(s[|FilePrefix|..])
    ensures r.Some? ==> s == FilePrefix + r.value
  {
    var rest := s[|FilePrefix|..];
    if rest != "" && NoLineTerminator(rest) then Some(rest) else None
  }

  /** The TypeError JavaScript raises synchronously inside `getInstallPackage`. */
  datatype Thrown = TypeError

  /** `path.isAbsolute` on POSIX: the path starts at the root. */
  predicate IsAbsolute(p: string) {
    StartsWith(p, "/")
  }

  /**
   * `path.resolve(base, p)` where `base` may be `undefined` (None). Node reads the arguments
   * from the right and stops at the first absolute one before it validates anything to its
   * left: an absolute `p` never looks at the base, and a relative one reaches the undefined
   * base and raises a TypeError. As the base is ignored for an absolute `p`, the model asks
   * `resolve` with the root `/` as base.
   */
  function ResolveWithBase(resolve: Resolve, base: Option<string>, p: string): (r: Result<string, Thrown>)
    ensures r.Err? <==> base.None? && !IsAbsolute(p)
    ensures base.Some? ==> r == Ok(resolve(base.value, p))
    ensures base.None? && IsAbsolute(p) ==> r == Ok(resolve("/", p))
  {
    match base
    case Some(dir) => Ok(resolve(dir, p))
    case None => if IsAbsolute(p) then Ok(resolve("/", p)) else Err(TypeError)
  }

  /**
   * `getInstallPackage(version, originalDirectory)` as written. `originalDirectory` is
   * None when the caller passed `undefined`. An `undefined` capture is the rightmost
   * argument of `path.resolve`, checked first, so it throws whatever the base; a defined
   * path throws only when it is relative and the base is `undefined`.
   */
  function GetInstallPackageAsWritten(version: Option<string>, originalDirectory: Option<string>,
                                      sem: Semver, resolve: Resolve): (r: Result<string, Thrown>)
    ensures r.Err? <==> && ValidSemver(sem, version).None? && IsFileSpecifier(version)
                        && (|| FilePathCapture(version.value).None?
                            || (originalDirectory.None? && !IsAbsolute(FilePathCapture(version.value).value)))
    ensures r.Ok? && originalDirectory.Some? ==>
              r.value == GetInstallPackage(version, originalDirectory.value, sem, resolve)
    ensures !(ValidSemver(sem, version).None? && IsFileSpecifier(version)) ==>
              forall dir :: r == Ok(GetInstallPackage(version, dir, sem, resolve))
    ensures r.Ok? && originalDirectory.None? && ValidSemver(sem, version).None? && IsFileSpecifier(version) ==>
              r.value == FilePrefix + resolve("/", version.value[|FilePrefix|..])
  {
    match ValidSemver(sem, version)
    case Some(v) => Ok(ScriptsPackage + "@" + v)
    case None =>
      if IsFileSpecifier(version) then
        match FilePathCapture(version.value)
        case None => Err(TypeError)
        case Some(path) =>
          match ResolveWithBase(resolve, originalDirectory, path)
          case Ok(resolved) => Ok(FilePrefix + resolved)
          case Err(e) => Err(e)
      else if version.Some? && version.value != "" then Ok(version.value)
      else Ok(ScriptsPackage)
  }

  /**
   * `getInstallPackage` as evidently intended: the `file:` branch resolves whatever
   * follows `file:`, the empty path included, instead of throwing.
   */
  function GetInstallPackage(version: Option<string>, originalDirectory: string,
                             sem: Semver, resolve: Resolve): (r: string)
    ensures ValidSemver(sem, version).Some? ==>
              r == ScriptsPackage + "@" + ValidSemver(sem, version).value
    ensures ValidSemver(sem, version).None? && IsFileSpecifier(version) ==>
              r == FilePrefix + resolve(originalDirectory, version.value[|FilePrefix|..])
    ensures ValidSemver(sem, version).None? && !IsFileSpecifier(version) && version.Some? && version.value != "" ==>
              r == version.value
    ensures ValidSemver(sem, version).None? && (version.None? || version.value == "") ==>
              r == ScriptsPackage
  {
    match ValidSemver(sem, version)
    case Some(v) => ScriptsPackage + "@" + v
    case None =>
      if IsFileSpecifier(version) then FilePrefix + resolve(originalDirectory, version.value[|FilePrefix|..])
      else if version.Some? && version.value != "" then version.value
      else ScriptsPackage
  }

  /** Resolution never fails and never yields the empty reference, whatever the specifier. */
  lemma InstallPackageNeverEmpty(version: Option<string>, originalDirectory: string, sem: Semver, resolve: Resolve)
    ensures GetInstallPackage(version, originalDirectory, sem, resolve) != ""
  {
  }

  /**
   * The specifier `file:` (an empty path) throws as written, where the intended reading
   * resolves the original directory itself.
   */
  lemma EmptyFilePathThrows(originalDirectory: string, sem: Semver, resolve: Resolve)
    requires sem.valid(FilePrefix).None?
    ensures GetInstallPackageAsWritten(Some(FilePrefix), Some(originalDirectory), sem, resolve) == Err(TypeError)
    ensures GetInstallPackage(Some(FilePrefix), originalDirectory, sem, resolve) == FilePrefix + resolve(originalDirectory, "")
  {
  }

  /**
   * As written, with the original directory `undefined`, a `file:` specifier throws when its
   * path is not absolute; an absolute path without line terminators resolves without the base.
   */
  lemma UndefinedDirectoryThrows(path: string, sem: Semver, resolve: Resolve)
    requires sem.valid(FilePrefix + path).None?
    ensures !IsAbsolute(path) ==> GetInstallPackageAsWritten(Some(FilePrefix + path), None, sem, resolve) == Err(TypeError)
    ensures IsAbsolute(path) && NoLineTerminator(path) ==>
              GetInstallPackageAsWritten(Some(FilePrefix + path), None, sem, resolve) == Ok(FilePrefix + resolve("/", path))
  {
    assert (FilePrefix + path)[|FilePrefix|..] == path;
  }
}

=== FILE: installer.dfy ===
/**
 * The dependency list `run` builds and the npm invocation `install` makes with it.
 * The child process itself is left out: its exit status is an input.
 */
module Installer {
  import opened Wrappers
  import opened Strings

  /** The packages every generated service depends on, in the order `run` lists them. */
  const BaseDependencies: seq<string> :=
    ["seneca", "seneca-balance-client", "code", "lab", "pino", "seneca-pino-adapter"]

  /** `allDependencies` in `run`: the base packages, then the resolved reference last. */
  function AllDependencies(packageToInstall: string): (deps: seq<string>)
    ensures |deps| == |BaseDependencies| + 1 && deps[|BaseDependencies|] == packageToInstall
    ensures deps[..|BaseDependencies|] == BaseDependencies
  {
    BaseDependencies + [packageToInstall]
  }

  const Npm: string := "npm"
  const InstallFlags: seq<string> := ["install", "--save", "--save-exact", "--loglevel", "error"]
  const VerboseFlag: string := "--verbose"

  /** The argument vector `install` hands to `spawn('npm', args)`. */
  function InstallArgs(deps: seq<string>, verbose: bool): (args: seq<string>)
    ensures |args| == |InstallFlags| + |deps| + (if verbose then 1 else 0)
    ensures args[..|InstallFlags|] == InstallFlags
    ensures args[|InstallFlags|..|InstallFlags| + |deps|] == deps
    ensures verbose ==> args[|args| - 1] == VerboseFlag
  {
    InstallFlags + deps + (if verbose then [VerboseFlag] else [])
  }

  /** How the `install` promise settles: resolved, or rejected with `{ command }`. */
  datatype InstallResult = Installed | Failed(command: string)

  /**
   * `install(root, dependencies, verbose)` once the child has closed. `exitCode` is the
   * `code` of the `close` event, None when it is `null` (the child was killed by a signal).
   */
  function Install(deps: seq<string>, verbose: bool, exitCode: Option<int>): (r: InstallResult)
    ensures r.Installed? <==> exitCode == Some(0)
    ensures r.Failed? ==> r.command == Npm + " " + Join(InstallArgs(deps, verbose), " ")
  {
    if exitCode != Some(0) then Failed(Npm + " " + Join(InstallArgs(deps, verbose), " "))
    else Installed
  }

  /** What the command line says after the dependencies. */
  function VerboseSuffix(verbose: bool): string {
    if verbose then " " + VerboseFlag else ""
  }

  /**
   * The reported command is the npm command line: the fixed flags, the dependencies in
   * order, and `--verbose` last when asked for.
   */
  lemma {:induction false} FailedCommandLine(deps: seq<string>, verbose: bool, exitCode: Option<int>)
    requires exitCode != Some(0) && |deps| > 0
    ensures Install(deps, verbose, exitCode) ==
              Failed(Npm + " " + Join(InstallFlags, " ") + " " + Join(deps, " ") + VerboseSuffix(verbose))
  {
    var flags := Join(InstallFlags, " ");
    JoinAppend(InstallFlags, deps, " ");
    if verbose {
      assert InstallArgs(deps, verbose) == (InstallFlags + deps) + [VerboseFlag];
      JoinAppend(InstallFlags + deps, [VerboseFlag], " ");
      assert Join(InstallArgs(deps, verbose), " ") == (flags + " " + Join(deps, " ")) + " " + VerboseFlag;
    } else {
      assert InstallArgs(deps, verbose) == InstallFlags + deps;
    }
  }

  /** The failing command for `run`'s dependency list names every base package, then the reference. */
  lemma RunInstallCommand(packageToInstall: string, verbose: bool, exitCode: Option<int>)
    requires exitCode != Some(0)
    ensures Install(AllDependencies(packageToInstall), verbose, exitCode) ==
              Failed(Npm + " " + Join(InstallFlags, " ") + " " + Join(BaseDependencies, " ") + " "
                     + packageToInstall + VerboseSuffix(verbose))
  {
    var deps := AllDependencies(packageToInstall);
    JoinAppend(BaseDependencies, [packageToInstall], " ");
    FailedCommandLine(deps, verbose, exitCode);
  }
}

=== FILE: package_name.dfy ===
/**
 * Package-name extraction (`getPackageName`): the name under which the installed
 * reference will appear in the manifest's `dependencies`. The branches are tried in a
 * fixed order: tarball, `git+` URL, `@` after the first character, `file:` path, and
 * otherwise the reference itself. The tarball and `file:` branches read archives and
 * manifests; the model names what they would read and leaves the reading out.
 */
module PackageName {
  import opened Wrappers
  import opened Strings
  import opened Externals
  import opened InstallPackage

  const GitPrefix: string := "git+"

  /** `/^.+\.(tgz|tar\.gz)$/`: at least one character before the extension, no line terminator. */
  predicate IsTarball(s: string) {
    && NoLineTerminator(s)
    && ((|s| > 4 && EndsWith(s, ".tgz")) || (|s| > 7 && EndsWith(s, ".tar.gz")))
  }

  /** `/.+@/`: some `@` after index 0 whose preceding character the regex `.` accepts. */
  predicate HasVersionSeparator(s: string) {
    exists k | 1 <= k < |s| :: s[k] == '@' && !IsLineTerminator(s[k - 1])
  }

  /** The first index at or after `from` holding `c`, or `|s|` when there is none. */
  function IndexOfFrom(s: string, c: char, from: nat): (k: nat)
    requires from <= |s|
    ensures from <= k <= |s|
    ensures k < |s| ==> s[k] == c
    ensures forall j | from <= j < k :: s[j] != c
    decreases |s| - from
  {
    if from == |s| then from
    else if s[from] == c then from
    else IndexOfFrom(s, c, from + 1)
  }

  /**
   * `s.charAt(0) + s.substr(1).split('@')[0]`: keep the first character (a scope's `@`)
   * and drop everything from the next `@` on.
   */
  function StripVersion(s: string): (r: string)
    requires s != ""
    ensures 1 <= |r| <= |s| && r == s[..|r|]
    ensures forall j | 1 <= j < |r| :: r[j] != '@'
    ensures |r| < |s| ==> s[|r|] == '@'
  {
    s[..IndexOfFrom(s, '@', 1)]
  }

  /**
   * The tarball test splits a reference into a stem and an archive extension: with either
   * extension appended, it holds exactly for a non-empty stem free of line terminators.
   */
  lemma TarballIsStemAndExtension(stem: string, ext: string)
    requires ext == ".tgz" || ext == ".tar.gz"
    ensures IsTarball(stem + ext) <==> stem != "" && NoLineTerminator(stem)
  {
    var s := stem + ext;
    assert s[|stem|..] == ext;
    assert s[|s| - |ext|..] == ext;
    if ext == ".tar.gz" {
      assert s[|s| - 4..] == ".tar.gz"[3..];
    }
    if IsTarball(s) {
      assert forall c | c in stem :: c in s;
    }
    if stem != "" && NoLineTerminator(stem) {
      assert forall i | 0 <= i < |s| :: s[i] in stem || s[i] in ext;
    }
  }

  /**
   * For a reference free of line terminators, the `/.+@/` test is the same as asking
   * whether `split('@')` after the first character cuts anything off.
   */
  lemma VersionSeparatorIsSplitPoint(s: string)
    requires NoLineTerminator(s)
    ensures HasVersionSeparator(s) <==> |s| > 0 && IndexOfFrom(s, '@', 1) < |s|
  {
    if |s| > 0 && IndexOfFrom(s, '@', 1) < |s| {
      var k := IndexOfFrom(s, '@', 1);
      assert s[k - 1] in s;
    }
  }

  /** After `.git` the regex `(#.*)?$` accepts nothing, or a `#` fragment free of line terminators. */
  predicate RefTailOk(s: string, k: nat)
    requires k <= |s|
  {
    k == |s| || (s[k] == '#' && NoLineTerminator(s[k..]))
  }

  /** `/([^/]+)\.git(#.*)?$/` matches with its group spanning `s[i..j]`. */
  predicate GitMatchAt(s: string, i: int, j: int) {
    && 0 <= i < j
    && j + 4 <= |s|
    && s[j..j + 4] == ".git"
    && '/' !in s[i..j]
    && RefTailOk(s, j + 4)
  }

  /** The greedy `[^/]+` from `i`: the largest group end `<= j` that lets the match succeed. */
  function LastGitEnd(s: string, i: nat, j: int): (r: Option<int>)
    ensures r.Some? ==> i < r.value <= j && GitMatchAt(s, i, r.value)
    ensures r.Some? ==> forall k | r.value < k <= j :: !GitMatchAt(s, i, k)
    ensures r.None? ==> forall k | k <= j :: !GitMatchAt(s, i, k)
    decreases j - i
  {
    if j <= i then None
    else if GitMatchAt(s, i, j) then Some(j)
    else LastGitEnd(s, i, j - 1)
  }

  /** The regex search: the leftmost start from `i` on that has a match, with its greedy end. */
  function GitMatchFrom(s: string, i: nat): (r: Option<(nat, nat)>)
    ensures r.Some? ==> i <= r.value.0 && GitMatchAt(s, r.value.0, r.value.1)
    ensures r.Some? ==> forall k | r.value.1 < k :: !GitMatchAt(s, r.value.0, k)
    ensures r.Some? ==> forall a, b | i <= a < r.value.0 :: !GitMatchAt(s, a, b)
    ensures r.None? ==> forall a, b | i <= a :: !GitMatchAt(s, a, b)
    decreases |s| - i
  {
    if i >= |s| then None
    else match LastGitEnd(s, i, |s| - 4)
      case Some(j) => Some((i, j))
      case None => GitMatchFrom(s, i + 1)
  }

  /** `installPackage.match(/([^/]+)\.git(#.*)?$/)[1]`, None where the match is `null`. */
  function GitRepoName(s: string): (r: Option<string>)
    ensures r.Some? ==> r.value != "" && '/' !in r.value
    ensures r.Some? ==> exists i :: OccursAt(s, r.value + ".git", i)
  {
    match GitMatchFrom(s, 0)
    case None => None
    case Some((i, j)) =>
      assert s[i..j] + ".git" == s[i..j + 4];
      assert OccursAt(s, s[i..j] + ".git", i);
      Some(s[i..j])
  }

  /** Where `getPackageName` gets the name from. */
  datatype NameSource =
    | FromArchive                    // the package.json inside the tarball (download and extraction)
    | Named(name: string)            // computed from the reference string alone
    | FromManifest(dir: string)      // the `name` of `<dir>/package.json`
    | Throws                         // a TypeError raised before any promise exists

  /** `getPackageName(installPackage)`: the dispatch, and the branches that are pure string work. */
  function PackageNameOf(ref: string): (r: NameSource)
    ensures r.FromArchive? <==> IsTarball(ref)
    ensures r.Throws? ==> StartsWith(ref, GitPrefix) || StartsWith(ref, FilePrefix)
    ensures r.Named? && StartsWith(ref, GitPrefix) ==>
              r.name != "" && '/' !in r.name && exists i :: OccursAt(ref, r.name + ".git", i)
    ensures r.Named? && !StartsWith(ref, GitPrefix) ==> StartsWith(ref, r.name)
    ensures r.FromManifest? ==> ref == FilePrefix + r.dir && r.dir != ""
  {
    if IsTarball(ref) then FromArchive
    else if StartsWith(ref, GitPrefix) then
      match GitRepoName(ref)
      case Some(name) => Named(name)
      case None => Throws
    else if HasVersionSeparator(ref) then Named(StripVersion(ref))
    else if StartsWith(ref, FilePrefix) then
      match FilePathCapture(ref)
      case Some(dir) => FromManifest(dir)
      case None => Throws
    else Named(ref)
  }

  /** A git reference yields a name only when `.git` occurs in it somewhere. */
  lemma GitNameNeedsDotGit(ref: string)
    ensures GitRepoName(ref).Some? ==> exists i :: OccursAt(ref, ".git", i)
  {
    match GitRepoName(ref)
    case None =>
    case Some(name) =>
      var i :| OccursAt(ref, name + ".git", i);
      assert ref[i + |name|..i + |name| + 4] == (name + ".git")[|name|..];
      assert OccursAt(ref, ".git", i + |name|);
  }

  /**
   * The git branch names the last path segment before `.git` and ignores a `#` fragment:
   * `p + "/" + name + ".git" + fragment` yields `name` when `p` and the fragment do not
   * themselves contain `.git`.
   */
  lemma {:induction false} GitUrlName(p: string, name: string, fragment: string)
    requires forall i :: !OccursAt(p, ".git", i)
    requires name != "" && '/' !in name
    requires fragment == "" || (fragment[0] == '#' && NoLineTerminator(fragment))
    requires forall i :: !OccursAt(fragment, ".git", i)
    ensures GitRepoName(p + "/" + name + ".git" + fragment) == Some(name)
  {
    var s := p + "/" + name + ".git" + fragment;
    var i0, j0 := |p| + 1, |p| + 1 + |name|;
    assert s[i0..j0] == name;
    assert s[j0..j0 + 4] == ".git";
    assert s[j0 + 4..] == fragment;
    assert GitMatchAt(s, i0, j0);
    assert s[|p|] == '/';
    forall a, b | 0 <= a < i0
      ensures !GitMatchAt(s, a, b)
    {
      if a < b && |p| < b <= |s| {
        assert s[a..b][|p| - a] == '/';
        assert '/' in s[a..b];
      } else if 0 <= b && b + 4 <= |p| {
        assert s[b..b + 4] == p[b..b + 4];
        assert !OccursAt(p, ".git", b);
        assert s[b..b + 4] != ".git";
      } else if 0 <= b <= |p| < b + 4 <= |s| {
        assert s[b..b + 4][|p| - b] == '/';
        assert s[b..b + 4] != ".git";
      }
    }
    forall k | j0 < k
      ensures !GitMatchAt(s, i0, k)
    {
      if k < j0 + 4 && k + 4 <= |s| {
        assert s[k..k + 4][0] == s[j0..j0 + 4][k - j0];
        assert s[k..k + 4] != ".git";
      } else if j0 + 4 <= k && k + 4 <= |s| {
        assert s[k..k + 4] == fragment[k - j0 - 4..k - j0];
        assert !OccursAt(fragment, ".git", k - j0 - 4);
        assert s[k..k + 4] != ".git";
      }
    }
    var m := GitMatchFrom(s, 0);
    assert m.Some?;
    assert m.value.0 == i0;
    assert m.value.1 == j0;
  }

  /** A `git+` reference of that shape is named by its repository, unless it looks like a tarball. */
  lemma GitReferenceName(p: string, name: string, fragment: string)
    requires StartsWith(p, GitPrefix)
    requires forall i :: !OccursAt(p, ".git", i)
    requires name != "" && '/' !in name
    requires fragment == "" || (fragment[0] == '#' && NoLineTerminator(fragment))
    requires forall i :: !OccursAt(fragment, ".git", i)
    requires !IsTarball(p + "/" + name + ".git" + fragment)
    ensures PackageNameOf(p + "/" + name + ".git" + fragment) == Named(name)
  {
    var s := p + "/" + name + ".git" + fragment;
    assert s[..|GitPrefix|] == p[..|GitPrefix|];
    GitUrlName(p, name, fragment);
  }

  /**
   * A `name@tag` reference is named `name`, a leading scope `@` included:
   * `@scope/pkg@1.0` gives `@scope/pkg`, `seneca-scripts@1.2.3` gives `seneca-scripts`.
   */
  lemma ScopedName(name: string, tag: string)
    requires name != "" && !IsLineTerminator(name[|name| - 1])
    requires forall j | 1 <= j < |name| :: name[j] != '@'
    requires !IsTarball(name + "@" + tag) && !StartsWith(name + "@" + tag, GitPrefix)
    ensures PackageNameOf(name + "@" + tag) == Named(name)
  {
    var s := name + "@" + tag;
    assert s[|name|] == '@' && s[|name| - 1] == name[|name| - 1];
    assert HasVersionSeparator(s);
    var r := StripVersion(s);
    assert |r| == |name|;
  }

  /**
   * Dispatch order: a `file:` reference whose path has an `@` never reaches the `file:`
   * branch. It is cut at that `@` instead, and the name keeps the `file:` prefix.
   */
  lemma FilePathWithAtIsCut(ref: string)
    requires StartsWith(ref, FilePrefix) && HasVersionSeparator(ref) && !IsTarball(ref)
    ensures PackageNameOf(ref).Named?
    ensures StartsWith(PackageNameOf(ref).name, FilePrefix) && |PackageNameOf(ref).name| < |ref|
  {
    assert ref[0] == 'f';
    assert !StartsWith(ref, GitPrefix);
    var r := StripVersion(ref);
    var k :| 1 <= k < |ref| && ref[k] == '@' && !IsLineTerminator(ref[k - 1]);
    assert k >= |FilePrefix|;
    assert |r| <= k;
    assert PackageNameOf(ref) == Named(r);
  }

  /** Any other reference is its own name. */
  lemma PlainName(ref: string)
    requires !IsTarball(ref) && !StartsWith(ref, GitPrefix) && !HasVersionSeparator(ref) && !StartsWith(ref, FilePrefix)
    ensures PackageNameOf(ref) == Named(ref)
  {
  }

  /** `name@tag` cannot look like a tarball through characters of `name`: only `tag` can end in an extension. */
  lemma TarballSuffixInTag(name: string, tag: string)
    requires IsTarball(name + "@" + tag)
    ensures EndsWith(tag, ".tgz") || EndsWith(tag, ".tar.gz")
  {
    var s := name + "@" + tag;
    assert s[|name|] == '@';
    if EndsWith(s, ".tgz") {
      assert |tag| >= 4;
      assert tag[|tag| - 4..] == s[|s| - 4..];
    } else {
      assert |tag| >= 7;
      assert tag[|tag| - 7..] == s[|s| - 7..];
    }
  }

  /** The default reference `seneca-scripts` is its own name. */
  lemma DefaultScriptsName()
    ensures PackageNameOf(ScriptsPackage) == Named(ScriptsPackage)
  {
    assert ScriptsPackage[0] == 's';
    assert forall k | 0 <= k < |ScriptsPackage| :: ScriptsPackage[k] != '@';
    PlainName(ScriptsPackage);
  }

  /** The pinned registry reference `seneca-scripts@v` is named `seneca-scripts`. */
  lemma VersionedScriptsName(v: string)
    requires !EndsWith(v, ".tgz") && !EndsWith(v, ".tar.gz")
    ensures PackageNameOf(ScriptsPackage + "@" + v) == Named(ScriptsPackage)
  {
    var ref := ScriptsPackage + "@" + v;
    if IsTarball(ref) {
      TarballSuffixInTag(ScriptsPackage, v);
    }
    assert ref[0] == 's';
    ScopedName(ScriptsPackage, v);
  }

  /**
   * Resolution and extraction agree on the registry package: with no specifier, or with a
   * valid version that does not end in an archive extension, the name is `seneca-scripts`.
   */
  lemma RegistryReferenceName(version: Option<string>, originalDirectory: string, sem: Semver, resolve: Resolve)
    requires version.None? || version == Some("") || ValidSemver(sem, version).Some?
    requires ValidSemver(sem, version).Some? ==>
               !EndsWith(ValidSemver(sem, version).value, ".tgz") && !EndsWith(ValidSemver(sem, version).value, ".tar.gz")
    ensures PackageNameOf(GetInstallPackage(version, originalDirectory, sem, resolve)) == Named(ScriptsPackage)
  {
    var ref := GetInstallPackage(version, originalDirectory, sem, resolve);
    match ValidSemver(sem, version)
    case None =>
      assert ref == ScriptsPackage;
      DefaultScriptsName();
    case Some(v) =>
      assert ref == ScriptsPackage + "@" + v;
      VersionedScriptsName(v);
  }
}

=== FILE: rollback.dfy ===
/**
 * The failure handler of `run` (its `.catch`): report the failure, delete the entries of
 * the project root that the bootstrap itself generates, remove the root when nothing else
 * is left, and exit with status 1. The directory is modelled by the names `readdirSync`
 * lists; deleting and changing directory are left out.
 */
module Rollback {
  import opened Wrappers

  /** The only entry names the handler ever deletes. */
  const KnownGeneratedFiles: seq<string> := ["package.json", "node_modules"]

  /** The rejection value as the handler reads it: only its `command` property matters. */
  datatype Reason = Reason(command: Option<string>)

  /** How the failure is reported. */
  datatype FailureKind = CommandFailed(command: string) | Unexpected

  /** `if (reason.command)`: a non-empty command means the installer failed. */
  function Classify(reason: Reason): (k: FailureKind)
    ensures k.CommandFailed? <==> reason.command.Some? && reason.command.value != ""
    ensures k.CommandFailed? ==> k.command == reason.command.value
  {
    match reason.command
    case Some(c) => if c != "" then CommandFailed(c) else Unexpected
    case None => Unexpected
  }

  /** The nested `forEach`: the entries, in directory order, that match a known generated name. */
  function DeletedEntries(files: seq<string>): (d: seq<string>)
    ensures |d| <= |files|
    ensures forall x :: x in d <==> x in files && x in KnownGeneratedFiles
  {
    if files == [] then []
    else (if files[0] in KnownGeneratedFiles then [files[0]] else []) + DeletedEntries(files[1..])
  }

  /** What the handler did before `process.exit`. */
  datatype Abort = Abort(kind: FailureKind, deleted: seq<string>, remaining: set<string>,
                         rootRemoved: bool, exitCode: int)

  /**
   * The handler run on `reason` with the root listing `files`. `remaining` is what the
   * second `readdirSync` lists: the first listing minus what was deleted.
   */
  function HandleFailure(reason: Reason, files: seq<string>): (a: Abort)
    ensures a.kind == Classify(reason) && a.exitCode == 1
    ensures forall f | f in files :: f in a.remaining <==> f !in KnownGeneratedFiles
    ensures forall f | f in a.remaining :: f in files
    ensures forall f | f in a.deleted :: f in KnownGeneratedFiles && f !in a.remaining
    ensures a.rootRemoved <==> forall f | f in files :: f in KnownGeneratedFiles
  {
    var deleted := DeletedEntries(files);
    var remaining := (set f | f in files) - (set f | f in deleted);
    Abort(Classify(reason), deleted, remaining, |remaining| == 0, 1)
  }

  /**
   * The allow-list rollback as set difference: what survives is exactly the listing minus
   * the known generated names, and the root goes exactly when that is empty.
   */
  lemma RollbackIsSetDifference(reason: Reason, files: seq<string>)
    ensures HandleFailure(reason, files).remaining == (set f | f in files) - (set g | g in KnownGeneratedFiles)
    ensures HandleFailure(reason, files).rootRemoved <==> HandleFailure(reason, files).remaining == {}
  {
  }

  /** A failure without a `command` is reported as unexpected, and still rolled back with status 1. */
  lemma UnexpectedFailureStillRollsBack(files: seq<string>)
    ensures HandleFailure(Reason(None), files).kind == Unexpected
    ensures HandleFailure(Reason(None), files).exitCode == 1
    ensures "package.json" !in HandleFailure(Reason(None), files).remaining
    ensures "node_modules" !in HandleFailure(Reason(None), files).remaining
  {
  }

  /**
   * Retrying is safe: a second failure over what the first rollback left behind deletes
   * nothing and leaves every survivor in place.
   */
  lemma RollbackRetryIsNoOp(first: Reason, second: Reason, files: seq<string>, later: seq<string>)
    requires (set f | f in later) == HandleFailure(first, files).remaining
    ensures HandleFailure(second, later).deleted == []
    ensures HandleFailure(second, later).remaining == HandleFailure(first, files).remaining
  {
    assert forall f | f in later :: f !in KnownGeneratedFiles;
    NothingKnownDeletesNothing(later);
  }

  lemma {:induction false} NothingKnownDeletesNothing(files: seq<string>)
    requires forall f | f in files :: f !in KnownGeneratedFiles
    ensures DeletedEntries(files) == []
  {
    if files != [] {
      NothingKnownDeletesNothing(files[1..]);
    }
  }
}

=== FILE: strings.dfy ===
/** String facts the JavaScript regular expressions and array joins of the bootstrap rely on. */
module Strings {

  /** The characters JavaScript's regex `.` refuses to match. */
  predicate IsLineTerminator(c: char) {
    c == '\n' || c == '\r' || c == '\U{2028}' || c == '\U{2029}'
  }

  /** `s` can be consumed entirely by the regex `.*`. */
  predicate NoLineTerminator(s: string) {
    forall c | c in s :: !IsLineTerminator(c)
  }

  predicate StartsWith(s: string, prefix: string) {
    |prefix| <= |s| && s[..|prefix|] == prefix
  }

  predicate EndsWith(s: string, suffix: string) {
    |suffix| <= |s| && s[|s| - |suffix|..] == suffix
  }

  /** `t` occurs in `s` starting at index `i`. */
  predicate OccursAt(s: string, t: string, i: int) {
    0 <= i && i + |t| <= |s| && s[i..i + |t|] == t
  }

  /** `Array.prototype.join`: the elements separated by `sep`; the empty array joins to "". */
  function Join(xs: seq<string>, sep: string): string {
    if |xs| == 0 then ""
    else if |xs| == 1 then xs[0]
    else xs[0] + sep + Join(xs[1..], sep)
  }

  /** Joining a concatenation puts one separator between the two joined halves. */
  lemma {:induction false} JoinAppend(xs: seq<string>, ys: seq<string>, sep: string)
    requires |xs| > 0 && |ys| > 0
    ensures Join(xs + ys, sep) == Join(xs, sep) + sep + Join(ys, sep)
    decreases |xs|
  {
    if |xs| == 1 {
      assert xs + ys == [xs[0]] + ys;
      assert (xs + ys)[1..] == ys;
    } else {
      assert (xs + ys)[1..] == xs[1..] + ys;
      JoinAppend(xs[1..], ys, sep);
    }
  }
}

=== FILE: wrappers.dfy ===
/** Failure-carrying datatypes shared by the whole model. */
module Wrappers {

  /** A value that may be missing: JavaScript's `undefined` or `null`. */
  datatype Option<+T> = None | Some(value: T)

  /** The outcome of a step that either produces a value or fails with an error. */
  datatype Result<+T, +E> = Ok(value: T) | Err(error: E)
}
